=== FILE: README.md ===
# Verified model of the key-value store benchmark drivers

The repository benchmarks embedded key-value stores with three small C drivers:

- `src/bench_mdb.c` runs LMDB with `key_%09d` string keys;
- `src/bench_mdbi.c` runs LMDB with native `int` keys (`MDB_INTEGERKEY`);
- `src/benchi.c` runs Sparkey (uncompressed and Snappy-compressed logs).

Each driver runs the same trial. It removes the candidate's files and bulk-loads
`n` synthetic records, the pair (key of `i`, `"value_<i>"`) for `i = 0..n-1`.
It then does random point lookups that rebuild the expected value from the index
and check it byte for byte. Finally it removes the files again. `src/bench_mdbi.c`
and `src/benchi.c` time the phases with `struct timeval` readings;
`src/bench_mdb.c` uses float clock readings. The LMDB drivers report the
database size `dsize` the engine computes, and the Sparkey driver reports the
artifacts' on-disk size from `total_file_size`.

This project models the logic inside those drivers and proves properties of it:

- **Formatting** (`Format`): `%d`, `%09d`, the key and value strings and the
  `memcmp` order. `key_%09d` is 13 bytes and strictly ascending below 10^9.
  `value_%d` is injective and fits the 100-byte buffer.
- **LMDB populate loop** (`BulkLoad`, `Lmdb`, `BenchMdb`, `BenchMdbi`): the
  `MDB_APPEND` puts and the `i`/`j` batch-commit schedule. The first in-loop
  commit closes a transaction of 1000 records and every later in-loop commit
  one of 999; the transaction the unchecked final commit closes holds all n
  records when n < 1000, and otherwise the 0 to 998 records after the last
  in-loop commit.
  The loop is shared by both LMDB drivers through a key function and a key order.
- **Lookup and verify loops** (`BenchMdb`, `BenchMdbi`, `BenchSparkey`): index
  `rand() % n`, the not-found and mismatch exits, and the round trip that every
  stored index verifies.
- **Sparkey put loop** (`Sparkey`, `BenchSparkey`).
- **Artifact helpers** (`Artifacts`): `rm_rec`, `rm_all_rec`, `file_size_rec`
  and `total_file_size` over an abstract directory tree. Their `readdir` loops
  are proved against recursive specification functions. Proved properties:
  idempotent removal, clean trees vanish, unknown entries keep their parent
  directory alive, and a missing path aborts the size computation.
- **Timing** (`Clock`): `timesub` updating a `Timeval` in place, and the choice
  of the creation and lookup throughput denominators in whole microseconds.
- **The `test` routine of `src/benchi.c`** (`BenchSparkey.Test`): the whole
  trial against a `FileSystem` object.

The engines are abstract. An LMDB database is the sequence of records appended
to it (`committed` plus the open transaction `txn`). An append is accepted only
when its key sorts after the last key. A Sparkey log is the sequence of pairs
put into it, and a lookup returns the last put of the key. Process exit is the
`Outcome.Exited(code)` result, with `code` the argument given to `exit()`. The
results of `rand()`, the clock readings, the commit return codes and the files
an engine writes are parameters.

Behaviour of the code that the model keeps as written:

- `total_file_size` on a reset (absent) artifact set ends the process: `stat`
  fails, so `errno_assert(-1)` exits with -1 (`Artifacts.SizeAfterReset`).
- The creation denominator falls back to wall time when the *user*-CPU delta is
  zero. The lookup denominator has no fallback and can be zero
  (`Clock.LookupDenominator`).
- A value mismatch exits with code 1. A key LMDB does not find exits with
  `MDB_NOTFOUND`. A Sparkey iterator that is not active exits with 1.
- The final commit of the LMDB populate loop stays unchecked. When it fails, the
  records after the last in-loop commit are lost and their lookups fail
  (`BenchMdb.LostFinalBatch`).
- Removal leaves the artifact set empty when the artifacts hold nothing but
  regular files and directories (`Artifacts.CleanRemoved`). A listed path that
  is itself neither is removed as well, but an entry of another type *inside* a
  listed directory keeps that directory alive (`Artifacts.OtherKeepsParent`).

## Model

| member | source | states |
|---|---|---|
| Process.ErrnoAssert | src/bench_mdb.c:26-31 | exits exactly when the result is non-zero, with that result as exit code; otherwise no effect |
| Format.DecimalUnpadded | src/bench_mdb.c:188 | `%d` adds no padding: the first digit is '0' exactly when the int is zero |
| Format.DecimalValue | src/bench_mdb.c:188 | `%d` of a non-negative int reads back as that int (round trip) |
| Format.ZeroPaddedValue | src/bench_mdb.c:187 | `%09d` reads back as the int, padding included (round trip) |
| Format.KeyInjective | src/bench_mdb.c:187 | distinct indices give distinct `key_%09d` keys |
| Format.ValueInjective | src/bench_mdb.c:188 | distinct indices give distinct `value_%d` values |
| Format.DecimalLength | src/bench_mdb.c:188 | an int below 10^k prints in at most k digits |
| Format.ZeroPaddedLength | src/bench_mdb.c:187 | `%09d` of an int below 10^9 is exactly 9 digits |
| Format.KeyLength | src/bench_mdb.c:187 | for 0 <= i < 10^9 the key is exactly 13 bytes |
| Format.ValueLength | src/bench_mdb.c:175-188 | for 0 <= i <= INT_MAX the value is at most 16 bytes, below the 100-byte buffer |
| Format.ValueHasNoNul | src/benchi.c:159-161 | the value holds no NUL byte, so `strlen` of the value equals its formatted length (as used at src/benchi.c:161 and 189) |
| Format.ZeroPaddedOrder | src/bench_mdb.c:187 | for i < j < 10^width the padded digits are ordered byte-wise like the ints |
| Format.KeyOrder | src/bench_mdb.c:186-189 | for i < j < 10^9, key(i) sorts before key(j) under `memcmp` order, as MDB_APPEND needs |
| Records.LookupLast | src/benchi.c:180-184 | not found exactly when no record has the key; a found value was stored under the key |
| Records.LookupGenerated | src/bench_mdb.c:186-189 | in a record sequence of indices 0..m-1 with distinct keys, the key of any stored index finds exactly its value |
| Records.LookupLastWins | src/benchi.c:180-184 | last write wins: the lookup finds the value of the latest record with the key |
| Records.LookupMissing | src/bench_mdb.c:227 | a key that was never put is not found |
| Lmdb.CursorPutAppend | src/bench_mdb.c:189 | the append succeeds exactly when the database is empty or the key sorts after the last key; else MDB_KEYEXIST and nothing changes |
| Lmdb.MdbAssert | src/bench_mdb.c:155-160 | exits exactly when the result is not MDB_SUCCESS, with that result as exit code |
| BulkLoad.BatchFill | src/bench_mdb.c:186-195 | `j` at the head of the pass for index i never exceeds 999, and is 999 exactly at a commit point |
| BulkLoad.BatchFillStep | src/bench_mdb.c:186-195 | one pass resets `j` to 1 after a commit and otherwise counts it up by one |
| BulkLoad.CommitPointsClosedForm | src/bench_mdb.c:186-195 | the k-th in-loop commit follows index 999(k+1); there are (n-1)/999 of them for n >= 1000 and none below |
| BulkLoad.CommitPointsMembers | src/bench_mdb.c:190 | an index is followed by a commit iff it is below n, at least 999 and divisible by 999 |
| BulkLoad.CommitPointsStep | src/bench_mdb.c:190-195 | the schedule gains index i exactly when i is a commit point |
| BulkLoad.CommitPointsGrow | src/bench_mdb.c:186-196 | the schedule of a shorter run is a prefix of that of a longer run |
| BulkLoad.FinalBatch | src/bench_mdb.c:197 | the final commit covers all records when n < 1000, and otherwise the 0 to 998 records after the last in-loop commit |
| BulkLoad.PutLoaded | src/bench_mdb.c:189 | an accepted put keeps records 0..i in index order with the durable prefix unchanged |
| BulkLoad.CommitLoaded | src/bench_mdb.c:192 | a successful commit makes all records put so far durable |
| BulkLoad.SucceededStep | src/bench_mdb.c:192 | the in-loop commits checked so far all returned MDB_SUCCESS |
| BulkLoad.PutNext | src/bench_mdb.c:187-195 | one pass: a refused put exits with MDB_KEYEXIST only when the key does not ascend, a failed commit exits with its code, and otherwise the loop state moves to index i+1 |
| BulkLoad.Populate | src/bench_mdb.c:166-202 | exits only on a refused put (keys not ascending) or a failed in-loop commit; with ascending keys and successful commits it completes, and a completed run had every in-loop commit succeed; then the commits are the schedule, the database holds records 0..n-1 in order, or only the durable prefix when the final commit failed |
| BenchMdb.MdbCreate | src/bench_mdb.c:166-202 | `mdb_create` with `key_%09d` keys: MDB_KEYEXIST is possible only when n > 10^9; with successful commits it completes with records 0..n-1, and a completed run had every in-loop commit succeed |
| BenchMdb.KeysAscending | src/bench_mdb.c:186-189 | up to 10^9 records every key sorts after the one before |
| BenchMdb.MdbRandomAccess | src/bench_mdb.c:204-237 | returns iff every lookup index rand() % n finds its own value; otherwise exits at the first failing lookup with MDB_NOTFOUND or 1 |
| BenchMdb.PopulateThenVerify | src/bench_mdb.c:186-189 | after a complete populate of n records every index below n verifies |
| BenchMdb.LostFinalBatch | src/bench_mdb.c:197 | when the unchecked final commit fails, an index after the last in-loop commit is not found and exits with MDB_NOTFOUND |
| BenchMdbi.MdbCreate | src/bench_mdbi.c:156-190 | `mdb_create` with int keys: only a failed in-loop commit can exit, so a completed run had every in-loop commit succeed; then records 0..n-1 (or the durable prefix) with the same schedule |
| BenchMdbi.MdbRandomAccess | src/bench_mdbi.c:193-226 | returns iff every lookup index finds its own value; otherwise exits at the first failing lookup with MDB_NOTFOUND or 1 |
| BenchMdbi.PopulateThenVerify | src/bench_mdbi.c:176-186 | after a complete populate every int key below n finds `value_<key>` |
| Clock.Timeval.constructor | src/bench_mdbi.c:110-121 | a struct holds the reading it was filled with |
| Clock.TimeSub | src/bench_mdbi.c:124-132 | tv1 becomes tv2 - tv1 in microseconds; normal usec fields stay normal; seconds are non-negative when tv2 >= tv1; tv2 is unchanged |
| Clock.EndPhase | src/bench_mdbi.c:273-275 | the three `timesub` calls turn the start readings into the phase durations and leave the end readings alone |
| Clock.NormalZero | src/bench_mdbi.c:280 | a normalised duration is zero exactly when both fields are zero |
| Clock.CreationDenominator | src/bench_mdbi.c:280-285 | the wall delta when the user-CPU delta is 0 s 0 us, else user plus system CPU |
| Clock.CreationDenominatorChoice | src/bench_mdbi.c:280-285 | for a normalised user delta the fallback is taken exactly when no user-CPU time elapsed |
| Clock.CreationDenominatorPositive | src/benchi.c:246-252 | with a positive wall delta and non-negative CPU deltas the creation denominator is positive |
| Clock.LookupDenominator | src/bench_mdbi.c:300-301 | user plus system CPU with no fallback; zero exactly when both deltas are zero |
| Artifacts.RemoveTree | src/benchi.c:35-54 | the `readdir` loop of `rm_rec` leaves what `AfterRm` specifies |
| Artifacts.TreeSize | src/benchi.c:69-93 | the `readdir` loop of `file_size_rec` sums what `FileSize` specifies |
| Artifacts.FileSystem.constructor | src/benchi.c:230 | the working directory `test` starts from, before its first `rm_all_rec`, holds the given entries |
| Artifacts.FileSystem.RmRec | src/benchi.c:35-54 | `rm_rec` on a path: an absent path is untouched, otherwise the path is replaced by what removal leaves |
| Artifacts.FileSystem.RmAllRec | src/benchi.c:56-66 | `rm_all_rec` applies `rm_rec` to each listed path in order |
| Artifacts.FileSystem.FileSizeRec | src/benchi.c:69-93 | `file_size_rec`: a missing path exits with -1, else the recursive size |
| Artifacts.FileSystem.TotalFileSize | src/benchi.c:95-106 | the sum of the listed sizes, or the exit of the first path that cannot be stat'ed |
| Artifacts.TotalSizeExit | src/benchi.c:95-106 | once a listed path fails to stat, the total exits with that code |
| Artifacts.TotalSizeDefined | src/benchi.c:69-106 | the total exists iff every listed path exists; otherwise it exits with -1 |
| Artifacts.SizeAfterReset | src/benchi.c:56-106 | right after removing clean artifacts, the size computation exits with -1 |
| Artifacts.SurvivorsAppend | src/benchi.c:39-50 | the `readdir` loop handles each entry on its own: removal distributes over concatenated listings |
| Artifacts.AfterRmStable | src/benchi.c:35-54 | what survives `rm_rec` is left unchanged by a second `rm_rec` |
| Artifacts.SurvivorsStable | src/benchi.c:39-50 | the surviving listing is a fixed point of the loop |
| Artifacts.KeptStable | src/benchi.c:42-48 | what one entry leaves is left unchanged by a second pass |
| Artifacts.RmAllIdempotent | src/benchi.c:56-66 | running `rm_all_rec` twice on the same list equals running it once |
| Artifacts.RmAllSettles | src/benchi.c:56-66 | after `rm_all_rec` each listed path is absent or a fixed point of removal |
| Artifacts.RmAllSettled | src/benchi.c:56-66 | `rm_all_rec` changes nothing when each listed path is absent or a fixed point |
| Artifacts.CleanRemoved | src/benchi.c:35-54 | on a tree of only regular files and directories `rm_rec` leaves the path absent |
| Artifacts.CleanSurvivors | src/benchi.c:39-50 | in a clean listing only "." and ".." survive the loop |
| Artifacts.OtherKeepsParent | src/benchi.c:44-48 | an entry neither DT_DIR nor DT_REG survives the loop, and so its directory survives `rm_rec` |
| Artifacts.RmAllClean | src/benchi.c:56-66 | after `rm_all_rec` over clean trees no listed path exists and unlisted paths are untouched |
| Sparkey.HashGet | src/benchi.c:180-184 | the iterator is active exactly when the key was put, and then holds the value of its last put |
| Sparkey.SparkeyAssert | src/benchi.c:145-150 | exits exactly when the result is not SPARKEY_SUCCESS, with that result as exit code |
| BenchSparkey.SparkeyCreate | src/benchi.c:155-165 | the log holds exactly n records: int key i with `value_<i>`, in index order |
| BenchSparkey.SparkeyRandomAccess | src/benchi.c:167-196 | returns iff every lookup index rand() % n finds an active iterator on its own value; otherwise exits with 1 at the first failing lookup |
| BenchSparkey.PopulateThenVerify | src/benchi.c:158-192 | every index below n of a created log verifies |
| BenchSparkey.LookupsSucceed | src/benchi.c:176-193 | every lookup into a freshly created log succeeds, whatever rand() returns |
| BenchSparkey.Take | src/benchi.c:110-121 | fresh structs holding the wall, user-CPU and system-CPU readings |
| BenchSparkey.PhaseDeltas | src/benchi.c:237-241 | the durations of a phase are end minus start readings, in normal form when the readings are |
| BenchSparkey.Test | src/benchi.c:222-272 | the trial completes iff every listed artifact exists after creation; it then reports the size of the created files, the phase durations and the denominators, and ends with the artifacts removed; otherwise it exits with -1 and leaves the artifacts behind |

## Left out

- The LMDB and Sparkey libraries are abstract. Only the behaviour the drivers rely on is modelled: ordered append, commit and abort, and last-write-wins lookup.
- Engine calls are assumed to succeed except for these: the in-loop `mdb_txn_commit` (its result is an input), `mdb_cursor_put` with MDB_APPEND, which fails with MDB_KEYEXIST on a key that does not ascend (`Lmdb.CursorPutAppend`, `BulkLoad.PutNext`), and `mdb_cursor_get`, which fails with MDB_NOTFOUND on a missing key (`BenchMdb.FailureCode`, `BenchMdbi.FailureCode`). Environment and transaction setup, cursor opens, the Sparkey writer, hash and iterator calls, and closes always succeed. `Sparkey.SparkeyAssert` models `sparkey_assert` on its own and is applied to no Sparkey call, since none of them fails in the model.
- The LMDB map size and the `dsize` statistic come from engine internals and are not modelled.
- The Sparkey compression type and block size do not change what the log holds, so they are not modelled.
- `gettimeofday`, `getrusage` and the float clock code of `src/bench_mdb.c` (Mach time, `clock_gettime`) are not modelled. Clock readings are inputs (`BenchSparkey.Snapshot`).
- No float arithmetic is modelled: the throughput divisions and the float phase times of `src/bench_mdb.c`. Denominators are whole microseconds.
- `printf` output is not modelled; `BenchSparkey.Report` carries the values `test` prints.
- `rand()` is a sequence of non-negative results; the number of lookups is its length.
- BenchMdb.MdbRandomAccess, BenchMdbi.MdbRandomAccess, BenchSparkey.SparkeyRandomAccess: require n > 0, since `rand() % 0` is undefined in C.
- `exit()` truncates its argument to 8 bits in the parent's view. The model keeps the full argument as the exit code.
- Integer widths are not modelled: `int` overflow of `i` or `n * 64L * 2`, `size_t` wrap-around of the size sums, and `time_t` limits. Indices are `nat`.
- The native byte encoding of `int` keys is left out. Keys are compared as integers (`Lmdb.IntegerKeyLess`), which is the order MDB_INTEGERKEY gives non-negative keys.
- Path strings are not modelled: entries are addressed by name in the tree. A path of 100 bytes or more overflows the 100-byte `subdir` buffer (`sprintf` does not truncate), which is undefined behaviour the model does not capture.
- Symbolic links, `DT_UNKNOWN`, `opendir`/`remove` failures other than a missing path, and the filesystem changing during a walk are not modelled. `readdir` returns the listing in the given order.
- `rm_rec` updates the tree in place. The model replaces the value at the path, so aliasing between paths (hard links) is not captured.
- The `test` routines of `src/bench_mdb.c` and `src/bench_mdbi.c` are not modelled as methods. `Clock` covers the `timesub` timing and denominators of the `test` of `src/bench_mdbi.c` only; the float `wall()`/`cpu()` timing of `src/bench_mdb.c` is left out with the other float code. Neither LMDB `test` calls `total_file_size` (they print the engine's `dsize`, which is not modelled), so they share with `BenchSparkey.Test` only the two `rm_all_rec` calls (`Artifacts.FileSystem.RmAllRec`).
- BenchSparkey.Test: the engine's files are an input map (`written`) merged into the working directory after creation. The lookup phase cannot fail there, because every lookup into a freshly created log succeeds.
- Dead `#if 0` blocks and `main`'s fixed trial matrix are not modelled.
- The diagnostic that prints the uninitialised `mykey` in `src/bench_mdbi.c` is not modelled.

=== FILE: artifacts.dfy ===
/**
 * The artifact helpers: recursive removal (`rm_rec`, `rm_all_rec`) and
 * recursive size (`file_size_rec`, `total_file_size`) of the files an
 * engine leaves behind, over an abstract directory tree.
 *
 * A directory is the list of entries `readdir` returns, in that order; an
 * entry named "." or ".." is skipped by name, whatever it points at. `Other`
 * is any entry that is neither a directory nor a regular file.
 */
module Artifacts {
  import opened Process

  datatype Node = File(size: nat) | Dir(entries: seq<DirEnt>) | Other
  datatype DirEnt = DirEnt(name: string, node: Node)

  predicate IsDot(name: string) {
    name == "." || name == ".."
  }

  /** A listing with nothing but "." and "..": the directory is empty and remove() succeeds. */
  predicate AllDots(ents: seq<DirEnt>) {
    forall k :: 0 <= k < |ents| ==> IsDot(ents[k].name)
  }

  // ---------------------------------------------------------------------
  // Removal, as specification functions

  /**
   * What `rm_rec` leaves at a path that holds `n`: None when the path is
   * gone. A regular file or other entry is unlinked by the final remove();
   * a directory is emptied entry by entry and then removed if it is empty.
   */
  function AfterRm(n: Node): Option<Node>
    decreases n
  {
    match n
    case File(_) => None
    case Other => None
    case Dir(ents) =>
      var rest := Survivors(ents);
      if AllDots(rest) then None else Some(Dir(rest))
  }

  /**
   * The listing after the readdir loop of `rm_rec`: each entry is handled
   * on its own, in order.
   */
  function Survivors(ents: seq<DirEnt>): seq<DirEnt>
    decreases ents
  {
    if ents == [] then [] else Survivors(ents[..|ents| - 1]) + Kept(ents[|ents| - 1])
  }

  /**
   * What one entry of the listing leaves: "." and ".." stay, a
   * sub-directory is removed recursively (what is left of it stays), a
   * regular file is removed, and any other entry is skipped and stays.
   */
  function Kept(e: DirEnt): seq<DirEnt>
    decreases e
  {
    if IsDot(e.name) then [e]
    else match e.node
      case File(_) => []
      case Other => [e]
      case Dir(_) =>
        match AfterRm(e.node)
        case None => []
        case Some(m) => [DirEnt(e.name, m)]
  }

  /** `rm_rec(path)` on a file system whose entries are `root`; an absent path is left alone. */
  function RmPath(root: map<string, Node>, path: string): map<string, Node> {
    if path !in root then root
    else match AfterRm(root[path])
      case None => root - {path}
      case Some(m) => root[path := m]
  }

  /** `rm_all_rec(files)`: `rm_rec` on each path of the list, in order. */
  function RmAll(root: map<string, Node>, files: seq<string>): map<string, Node> {
    if files == [] then root else RmPath(RmAll(root, files[..|files| - 1]), files[|files| - 1])
  }

  // ---------------------------------------------------------------------
  // Sizes, as specification functions

  /** `file_size_rec` on an existing path: a file's size, a directory's total, 0 for anything else. */
  function FileSize(n: Node): nat
    decreases n
  {
    match n
    case File(s) => s
    case Other => 0
    case Dir(ents) => DirSize(ents)
  }

  /** The sum over a listing, skipping "." and "..". */
  function DirSize(ents: seq<DirEnt>): nat
    decreases ents
  {
    if ents == [] then 0
    else
      var e := ents[|ents| - 1];
      DirSize(ents[..|ents| - 1]) + (if IsDot(e.name) then 0 else FileSize(e.node))
  }

  /** `file_size_rec(path)`: a path that cannot be stat'ed ends the process through `errno_assert`. */
  function SizeAt(root: map<string, Node>, path: string): Outcome<nat> {
    if path !in root then Exited(ErrnoAssert(STAT_FAILED).code) else Ok(FileSize(root[path]))
  }

  /** `total_file_size(files)`: the sizes of the listed paths, added in order. */
  function TotalSize(root: map<string, Node>, files: seq<string>): Outcome<nat> {
    if files == [] then Ok(0)
    else match TotalSize(root, files[..|files| - 1])
      case Exited(c) => Exited(c)
      case Ok(s) =>
        match SizeAt(root, files[|files| - 1])
        case Exited(c) => Exited(c)
        case Ok(t) => Ok(s + t)
  }

  // ---------------------------------------------------------------------
  // The loops of the source, proved against the functions above

  /** The readdir loop of `rm_rec` on a path holding `n`, then the final remove(). */
  method RemoveTree(n: Node) returns (rest: Option<Node>)
    ensures rest == AfterRm(n)
    decreases n
  {
    match n {
      case File(_) =>
        rest := None;
      case Other =>
        rest := None;
      case Dir(ents) =>
        var kept: seq<DirEnt> := [];
        var i := 0;
        while i < |ents|
          invariant i <= |ents|
          invariant kept == Survivors(ents[..i])
        {
          var e := ents[i];
          assert ents[..i + 1][..i] == ents[..i];
          if !IsDot(e.name) {
            match e.node {
              case Dir(_) =>
                assert e in ents;
                var sub := RemoveTree(e.node);
                if sub.Some? {
                  kept := kept + [DirEnt(e.name, sub.value)];
                }
              case File(_) =>
              case Other =>
                kept := kept + [e];
            }
          } else {
            kept := kept + [e];
          }
          i := i + 1;
        }
        assert ents[..i] == ents;
        rest := if AllDots(kept) then None else Some(Dir(kept));
    }
  }

  /** The readdir loop of `file_size_rec` on an existing path holding `n`. */
  method TreeSize(n: Node) returns (size: nat)
    ensures size == FileSize(n)
    decreases n
  {
    match n {
      case File(s) =>
        size := s;
      case Other =>
        size := 0;
      case Dir(ents) =>
        var sum := 0;
        var i := 0;
        while i < |ents|
          invariant i <= |ents|
          invariant sum == DirSize(ents[..i])
        {
          var e := ents[i];
          assert ents[..i + 1][..i] == ents[..i];
          if !IsDot(e.name) {
            assert e in ents;
            var sub := TreeSize(e.node);
            sum := sum + sub;
          }
          i := i + 1;
        }
        assert ents[..i] == ents;
        size := sum;
    }
  }

  /** The working directory the artifact paths are resolved in. */
  class FileSystem {
    var root: map<string, Node>

    constructor (root: map<string, Node>)
      ensures this.root == root
    {
      this.root := root;
    }

    /** `rm_rec(path)`. */
    method RmRec(path: string)
      modifies this
      ensures root == RmPath(old(root), path)
    {
      if path in root {
        var rest := RemoveTree(root[path]);
        if rest.None? {
          root := root - {path};
        } else {
          root := root[path := rest.value];
        }
      }
    }

    /** `rm_all_rec(files)`, the list being the paths before the NULL terminator. */
    method RmAllRec(files: seq<string>)
      modifies this
      ensures root == RmAll(old(root), files)
    {
      var i := 0;
      while i < |files|
        invariant i <= |files|
        invariant root == RmAll(old(root), files[..i])
      {
        assert files[..i + 1][..i] == files[..i];
        RmRec(files[i]);
        i := i + 1;
      }
      assert files[..i] == files;
    }

    /** `file_size_rec(path)`. */
    method FileSizeRec(path: string) returns (o: Outcome<nat>)
      ensures o == SizeAt(root, path)
    {
      if path !in root {
        o := Exited(ErrnoAssert(STAT_FAILED).code);
      } else {
        var size := TreeSize(root[path]);
        o := Ok(size);
      }
    }

    /** `total_file_size(files)`, the list being the paths before the NULL terminator. */
    method TotalFileSize(files: seq<string>) returns (o: Outcome<nat>)
      ensures o == TotalSize(root, files)
    {
      var sum := 0;
      var i := 0;
      while i < |files|
        invariant i <= |files|
        invariant TotalSize(root, files[..i]) == Ok(sum)
      {
        assert files[..i + 1][..i] == files[..i];
        var size := FileSizeRec(files[i]);
        if size.Exited? {
          o := Exited(size.code);
          assert files[..i + 1] == files[..i] + [files[i]];
          TotalSizeExit(root, files, i);
          return;
        }
        sum := sum + size.value;
        i := i + 1;
      }
      assert files[..i] == files;
      o := Ok(sum);
    }
  }

  // ---------------------------------------------------------------------
  // Properties

  /** Once a path fails to stat, the total ends the process with that code. */
  lemma {:induction false} TotalSizeExit(root: map<string, Node>, files: seq<string>, i: nat)
    requires i < |files| && TotalSize(root, files[..i]).Ok? && SizeAt(root, files[i]).Exited?
    ensures TotalSize(root, files) == Exited(SizeAt(root, files[i]).code)
    decreases |files|
  {
    if i + 1 < |files| {
      var pre := files[..|files| - 1];
      assert pre[..i] == files[..i] && pre[i] == files[i];
      TotalSizeExit(root, pre, i);
    } else {
      assert files[..i] == files[..|files| - 1];
    }
  }

  /** Removal distributes over the listing: entries are handled one at a time. */
  lemma {:induction false} SurvivorsAppend(a: seq<DirEnt>, b: seq<DirEnt>)
    ensures Survivors(a + b) == Survivors(a) + Survivors(b)
    decreases |b|
  {
    if b == [] {
      assert a + b == a;
    } else {
      var b' := b[..|b| - 1];
      assert (a + b)[..|a + b| - 1] == a + b';
      SurvivorsAppend(a, b');
    }
  }

  /** What survives removal is a fixed point of removal. */
  lemma {:induction false} AfterRmStable(n: Node)
    ensures AfterRm(n).Some? ==> AfterRm(AfterRm(n).value) == AfterRm(n)
    decreases n
  {
    if n.Dir? {
      SurvivorsStable(n.entries);
    }
  }

  lemma {:induction false} SurvivorsStable(ents: seq<DirEnt>)
    ensures Survivors(Survivors(ents)) == Survivors(ents)
    decreases ents
  {
    if ents != [] {
      var pre := ents[..|ents| - 1];
      var e := ents[|ents| - 1];
      SurvivorsStable(pre);
      SurvivorsAppend(Survivors(pre), Kept(e));
      KeptStable(e);
    }
  }

  /** What an entry leaves is left alone by a second pass. */
  lemma {:induction false} KeptStable(e: DirEnt)
    ensures Survivors(Kept(e)) == Kept(e)
    decreases e
  {
    var k := Kept(e);
    if k != [] {
      assert k[..0] == [];
      if !IsDot(e.name) && e.node.Dir? {
        AfterRmStable(e.node);
      }
    }
  }

  /**
   * Removing the same paths again changes nothing: `rm_all_rec` is
   * idempotent, and the second run finds every path absent or already
   * reduced to what cannot be removed.
   */
  lemma RmAllIdempotent(root: map<string, Node>, files: seq<string>)
    ensures RmAll(RmAll(root, files), files) == RmAll(root, files)
  {
    RmAllSettles(root, files);
    RmAllSettled(RmAll(root, files), files);
  }

  /** Every listed path is absent or a fixed point of removal. */
  ghost predicate Settled(root: map<string, Node>, files: seq<string>) {
    forall k :: 0 <= k < |files| && files[k] in root ==> AfterRm(root[files[k]]) == Some(root[files[k]])
  }

  lemma {:induction false} RmAllSettles(root: map<string, Node>, files: seq<string>)
    ensures Settled(RmAll(root, files), files)
    decreases |files|
  {
    if files != [] {
      var pre := files[..|files| - 1];
      var p := files[|files| - 1];
      RmAllSettles(root, pre);
      var mid := RmAll(root, pre);
      if p in mid {
        AfterRmStable(mid[p]);
      }
      forall k | 0 <= k < |files| && files[k] in RmAll(root, files)
        ensures AfterRm(RmAll(root, files)[files[k]]) == Some(RmAll(root, files)[files[k]])
      {
        if files[k] != p {
          assert pre[k] == files[k];
        }
      }
    }
  }

  lemma {:induction false} RmAllSettled(root: map<string, Node>, files: seq<string>)
    requires Settled(root, files)
    ensures RmAll(root, files) == root
    decreases |files|
  {
    if files != [] {
      var pre := files[..|files| - 1];
      assert Settled(root, pre) by {
        forall k | 0 <= k < |pre| && pre[k] in root ensures AfterRm(root[pre[k]]) == Some(root[pre[k]]) {
          assert pre[k] == files[k];
        }
      }
      RmAllSettled(root, pre);
      var p := files[|files| - 1];
      if p in root {
        assert root[p := root[p]] == root;
      }
    }
  }

  /** A tree of only regular files and directories (entries named "." or ".." aside). */
  predicate Clean(n: Node)
    decreases n
  {
    match n
    case File(_) => true
    case Other => false
    case Dir(ents) => forall k :: 0 <= k < |ents| ==> IsDot(ents[k].name) || Clean(ents[k].node)
  }

  /** On a clean tree `rm_rec` leaves the path absent. */
  lemma {:induction false} CleanRemoved(n: Node)
    requires Clean(n)
    ensures AfterRm(n) == None
    decreases n
  {
    if n.Dir? {
      CleanSurvivors(n.entries);
    }
  }

  lemma {:induction false} CleanSurvivors(ents: seq<DirEnt>)
    requires forall k :: 0 <= k < |ents| ==> IsDot(ents[k].name) || Clean(ents[k].node)
    ensures AllDots(Survivors(ents))
    decreases ents
  {
    if ents != [] {
      var pre := ents[..|ents| - 1];
      var e := ents[|ents| - 1];
      CleanSurvivors(pre);
      if !IsDot(e.name) && e.node.Dir? {
        CleanRemoved(e.node);
      }
    }
  }

  /**
   * An entry that is neither a directory nor a regular file is never
   * removed from inside a directory, so that directory survives `rm_rec`.
   */
  lemma {:induction false} OtherKeepsParent(ents: seq<DirEnt>, k: nat)
    requires k < |ents| && !IsDot(ents[k].name) && ents[k].node.Other?
    ensures ents[k] in Survivors(ents)
    ensures AfterRm(Dir(ents)).Some?
    decreases ents
  {
    var pre := ents[..|ents| - 1];
    if k < |ents| - 1 {
      assert pre[k] == ents[k];
      OtherKeepsParent(pre, k);
    }
    assert ents[k] in Survivors(ents);
  }

  /**
   * After `rm_all_rec` over paths whose trees are clean, none of them
   * exists, and every path not in the list is untouched.
   */
  lemma {:induction false} RmAllClean(root: map<string, Node>, files: seq<string>)
    requires forall k :: 0 <= k < |files| && files[k] in root ==> Clean(root[files[k]])
    ensures forall k :: 0 <= k < |files| ==> files[k] !in RmAll(root, files)
    ensures forall p :: p !in files ==> (p in RmAll(root, files) <==> p in root)
    ensures forall p :: p !in files && p in root ==> RmAll(root, files)[p] == root[p]
    decreases |files|
  {
    if files != [] {
      var pre := files[..|files| - 1];
      var last := files[|files| - 1];
      assert forall k :: 0 <= k < |pre| ==> pre[k] == files[k];
      RmAllClean(root, pre);
      var mid := RmAll(root, pre);
      if last in mid && last !in pre {
        assert mid[last] == root[last];
        CleanRemoved(root[last]);
      }
      forall p | p in files ensures p !in RmAll(root, files) {
        if p != last {
          var k :| 0 <= k < |files| && files[k] == p;
          assert pre[k] == p;
        }
      }
    }
  }

  /**
   * `total_file_size` ends the process exactly when some listed path is
   * missing, and otherwise is the sum of the listed sizes.
   */
  lemma {:induction false} TotalSizeDefined(root: map<string, Node>, files: seq<string>)
    ensures TotalSize(root, files).Ok? <==> forall k :: 0 <= k < |files| ==> files[k] in root
    ensures TotalSize(root, files).Exited? ==> TotalSize(root, files).code == STAT_FAILED
    decreases |files|
  {
    if files != [] {
      var pre := files[..|files| - 1];
      TotalSizeDefined(root, pre);
      assert forall k :: 0 <= k < |pre| ==> pre[k] == files[k];
    }
  }

  /**
   * Right after a reset of clean artifacts the size cannot be taken: the
   * first listed path fails to stat and the process ends with -1.
   */
  lemma SizeAfterReset(root: map<string, Node>, files: seq<string>)
    requires files != []
    requires forall k :: 0 <= k < |files| && files[k] in root ==> Clean(root[files[k]])
    ensures TotalSize(RmAll(root, files), files) == Exited(STAT_FAILED)
  {
    RmAllClean(root, files);
    TotalSizeDefined(RmAll(root, files), files);
  }
}

=== FILE: batching.dfy ===
/**
 * The populate loop shared by both LMDB drivers (`mdb_create` in
 * src/bench_mdb.c and src/bench_mdbi.c differ only in how the key of index
 * `i` is formed), and its transaction schedule.
 *
 * The loop advances the index `i` and the batch counter `j` together; when
 * `j` is 999 after a put it commits, begins a new write transaction and sets
 * `j` back to 0, which the loop step then raises to 1. So the first
 * transaction holds 1000 records (indices 0..999) and every later full
 * transaction holds 999. One more commit follows the loop.
 */
module BulkLoad {
  import opened Process
  import opened Records
  import opened Format
  import Lmdb

  /** The value of `j` at the head of the iteration for index `i`. */
  function BatchFill(i: nat): (j: nat)
    ensures j <= 999
    ensures j == 999 <==> IsCommitPoint(i)
  {
    if i < 1000 then i else (i - 1000) % 999 + 1
  }

  /** A commit follows the put of index `i`. */
  predicate IsCommitPoint(i: nat) {
    i >= 999 && i % 999 == 0
  }

  /** The indices, in loop order, after whose put a transaction is committed inside the loop. */
  function CommitPoints(n: nat): seq<nat> {
    if n == 0 then [] else CommitPoints(n - 1) + (if IsCommitPoint(n - 1) then [n - 1] else [])
  }

  /** Number of records made durable by the in-loop commits listed in `commits`. */
  function Durable(commits: seq<nat>): nat {
    if commits == [] then 0 else commits[|commits| - 1] + 1
  }

  /** One loop step keeps the `j` invariant: j is reset at a commit point and counts up otherwise. */
  lemma BatchFillStep(i: nat)
    ensures BatchFill(i + 1) == if BatchFill(i) == 999 then 1 else BatchFill(i) + 1
  {
    if i >= 1000 {
      var q, r := (i - 1000) / 999, (i - 1000) % 999;
      assert i + 1 - 1000 == 999 * q + (r + 1);
      if r + 1 == 999 {
        assert i + 1 - 1000 == 999 * (q + 1);
      }
    }
  }

  /**
   * Closed form of the schedule: the k-th in-loop commit follows index
   * 999 * (k + 1). So the first transaction commits indices 0..999 (1000
   * records) and every later in-loop transaction commits 999 records.
   */
  lemma {:induction false} CommitPointsClosedForm(n: nat)
    ensures |CommitPoints(n)| == if n < 1000 then 0 else (n - 1) / 999
    ensures forall k :: 0 <= k < |CommitPoints(n)| ==> CommitPoints(n)[k] == 999 * (k + 1)
  {
    if n > 0 {
      CommitPointsClosedForm(n - 1);
    }
  }

  /** Both directions: an index is listed exactly when it is a commit point below `n`. */
  lemma {:induction false} CommitPointsMembers(n: nat, i: nat)
    ensures i in CommitPoints(n) <==> i < n && IsCommitPoint(i)
  {
    if n > 0 {
      CommitPointsMembers(n - 1, i);
    }
  }

  /** One index further, the schedule gains exactly the index when it is a commit point. */
  lemma CommitPointsStep(i: nat)
    ensures CommitPoints(i + 1) == if IsCommitPoint(i) then CommitPoints(i) + [i] else CommitPoints(i)
  {
  }

  /** The schedule for a shorter run is a prefix of the schedule for a longer one. */
  lemma {:induction false} CommitPointsGrow(i: nat, n: nat)
    requires i <= n
    ensures |CommitPoints(i)| <= |CommitPoints(n)|
    ensures CommitPoints(i) == CommitPoints(n)[..|CommitPoints(i)|]
  {
    if i < n {
      CommitPointsGrow(i, n - 1);
    }
  }

  /**
   * What the final commit after the loop covers: every record when fewer
   * than 1000 were put, and otherwise the 0 to 998 records after the last
   * in-loop commit.
   */
  lemma FinalBatch(n: nat)
    ensures n < 1000 ==> Durable(CommitPoints(n)) == 0
    ensures n >= 1000 ==> 0 <= n - Durable(CommitPoints(n)) < 999
  {
    CommitPointsClosedForm(n);
  }

  /** The first `m` calls to `mdb_txn_commit` succeed. */
  ghost predicate CommitsSucceeded(commitRc: nat -> int, m: nat) {
    forall k :: 0 <= k < m ==> commitRc(k) == Lmdb.MDB_SUCCESS
  }

  /** Each key of an index below `m` sorts after the key of the index before it. */
  ghost predicate Ascending<K>(key: nat -> K, less: (K, K) -> bool, m: nat) {
    forall i: nat :: 0 < i < m ==> less(key(i - 1), key(i))
  }

  /** The state at the head of the loop for index `i`: records 0..i-1 were put, the first `Durable(commits)` of them are committed. */
  ghost predicate Loaded<K>(env: Lmdb.Env<K>, key: nat -> K, i: nat, commits: seq<nat>) {
    Generated(Lmdb.Visible(env), key) && |Lmdb.Visible(env)| == i
    && |env.committed| == Durable(commits) && env.committed == Lmdb.Visible(env)[..|env.committed|]
  }

  /** An accepted put keeps the loop state, one index further. */
  lemma PutLoaded<K>(env: Lmdb.Env<K>, env': Lmdb.Env<K>, key: nat -> K, i: nat, commits: seq<nat>)
    requires Loaded(env, key, i, commits)
    requires env'.committed == env.committed
    requires Lmdb.Visible(env') == Lmdb.Visible(env) + [(key(i), ValueString(i))]
    ensures Loaded(env', key, i + 1, commits)
  {
    GeneratedAppend(Lmdb.Visible(env), key);
    assert Lmdb.Visible(env')[..|env.committed|] == Lmdb.Visible(env)[..|env.committed|];
  }

  /** A successful commit after the put of index `i` makes every record put so far durable. */
  lemma CommitLoaded<K>(env: Lmdb.Env<K>, key: nat -> K, i: nat, commits: seq<nat>)
    requires Loaded(env, key, i + 1, commits)
    ensures Loaded(Lmdb.TxnCommit(env), key, i + 1, commits + [i])
  {
    assert Lmdb.Visible(Lmdb.TxnCommit(env)) == Lmdb.Visible(env);
  }

  /**
   * One pass of the loop body for index `i`: the MDB_APPEND put of
   * (key(i), "value_<i>") and, when `j` is 999, the checked commit that ends
   * the transaction (after which `mdb_txn_begin` and `mdb_cursor_open` start
   * the next one). Returns the counters for the next pass.
   */
  method PutNext<K>(env: Lmdb.Env<K>, i: nat, j: nat, commits: seq<nat>, key: nat -> K, less: (K, K) -> bool, commitRc: nat -> int)
    returns (o: Outcome<Lmdb.Env<K>>, j': nat, commits': seq<nat>)
    requires j == BatchFill(i) && commits == CommitPoints(i) && Loaded(env, key, i, commits)
    ensures o.Exited? ==> o.code != Lmdb.MDB_SUCCESS
    ensures o.Exited? ==>
      (o.code == commitRc(|commits|) && IsCommitPoint(i))
      || (o.code == Lmdb.MDB_KEYEXIST && i > 0 && !less(key(i - 1), key(i)))
    ensures o.Ok? ==> j' == BatchFill(i + 1) && commits' == CommitPoints(i + 1) && Loaded(o.value, key, i + 1, commits')
    ensures o.Ok? && IsCommitPoint(i) ==> commitRc(|commits|) == Lmdb.MDB_SUCCESS
  {
    var put := Lmdb.CursorPutAppend(env, key(i), ValueString(i), less);
    var rc := put.0;
    j', commits' := j, commits;
    if Lmdb.MdbAssert(rc).Exited? {
      o := Exited(rc);
      return;
    }
    var env' := put.1;
    PutLoaded(env, env', key, i, commits);
    if j == 999 {
      j' := 0;
      rc := commitRc(|commits|);
      if Lmdb.MdbAssert(rc).Exited? {
        o := Exited(rc);
        return;
      }
      CommitLoaded(env', key, i, commits);
      env' := Lmdb.TxnCommit(env');
      assert CommitPoints(i + 1) == commits + [i];
      commits' := commits + [i];
    }
    BatchFillStep(i);
    o, j' := Ok(env'), j' + 1;
  }

  /** The commits checked up to index `i` include the one after `i` when `i` is a commit point. */
  lemma SucceededStep(commitRc: nat -> int, i: nat, commits: seq<nat>)
    requires commits == CommitPoints(i) && CommitsSucceeded(commitRc, |commits|)
    requires IsCommitPoint(i) ==> commitRc(|commits|) == Lmdb.MDB_SUCCESS
    ensures CommitsSucceeded(commitRc, |CommitPoints(i + 1)|)
  {
  }

  /**
   * The body of `mdb_create(n)`: put (key(i), "value_<i>") for i = 0..n-1
   * with MDB_APPEND, committing the write transaction whenever `j` reaches
   * 999. The k-th `mdb_txn_commit` returns `commitRc(k)` (the engine's
   * verdict, an input here). In-loop commits are checked; the result of the
   * final commit after the loop is ignored, so a failing final commit
   * silently drops the records put after the last in-loop commit. The
   * returned `commits` lists the indices after which an in-loop commit
   * happened.
   */
  method Populate<K>(n: nat, key: nat -> K, less: (K, K) -> bool, commitRc: nat -> int)
    returns (o: Outcome<Lmdb.Env<K>>, commits: seq<nat>)
    ensures o.Exited? ==> o.code != Lmdb.MDB_SUCCESS
    ensures o.Exited? ==> o.code == commitRc(|commits|) || (o.code == Lmdb.MDB_KEYEXIST && !Ascending(key, less, n))
    ensures Ascending(key, less, n) && CommitsSucceeded(commitRc, |CommitPoints(n)|) ==> o.Ok?
    ensures o.Ok? ==> commits == CommitPoints(n) && o.value.txn == []
    ensures o.Ok? ==> CommitsSucceeded(commitRc, |CommitPoints(n)|)
    ensures o.Ok? ==> Generated(o.value.committed, key)
    ensures o.Ok? ==> |o.value.committed| == if commitRc(|commits|) == Lmdb.MDB_SUCCESS then n else Durable(commits)
  {
    var env: Lmdb.Env<K> := Lmdb.EmptyEnv();
    var i: nat, j: nat := 0, 0;
    commits := [];
    while i < n
      invariant i <= n
      invariant j == BatchFill(i) && commits == CommitPoints(i)
      invariant CommitsSucceeded(commitRc, |commits|)
      invariant Loaded(env, key, i, commits)
    {
      var step, j', commits' := PutNext(env, i, j, commits, key, less, commitRc);
      if step.Exited? {
        if IsCommitPoint(i) {
          CommitPointsGrow(i + 1, n);
          assert CommitPoints(i + 1) == commits + [i];
        }
        o := Exited(step.code);
        return;
      }
      SucceededStep(commitRc, i, commits);
      env, commits := step.value, commits';
      i, j := i + 1, j';
    }
    // the final mdb_txn_commit: its result is not checked
    var rc := commitRc(|commits|);
    GeneratedPrefix(Lmdb.Visible(env), key, |env.committed|);
    env := if rc == Lmdb.MDB_SUCCESS then Lmdb.TxnCommit(env) else Lmdb.TxnAbort(env);
    o := Ok(env);
  }
}

=== FILE: bench_mdb.dfy ===
/**
 * The LMDB driver with formatted string keys: `key_%09d` keys and
 * `value_%d` values, bulk-loaded in ascending key order with MDB_APPEND in
 * batched write transactions, then read back by random point lookups that
 * check every value.
 */
module BenchMdb {
  import opened Process
  import opened Format
  import opened Records
  import opened BulkLoad
  import Lmdb

  /**
   * `mdb_create(n)`: the shared populate loop with `key_%09d` keys under
   * LMDB's default byte-wise key order. Up to 10^9 records the keys arrive in
   * ascending order, so MDB_APPEND never refuses one; past that the 10-digit
   * keys sort before the 9-digit ones and the put fails with MDB_KEYEXIST.
   */
  method MdbCreate(n: nat, commitRc: nat -> int) returns (o: Outcome<Lmdb.Env<string>>, commits: seq<nat>)
    ensures o.Exited? ==> o.code != Lmdb.MDB_SUCCESS
    ensures o.Exited? ==> o.code == commitRc(|commits|) || (o.code == Lmdb.MDB_KEYEXIST && n > KEY_LIMIT)
    ensures n <= KEY_LIMIT && CommitsSucceeded(commitRc, |CommitPoints(n)|) ==> o.Ok?
    ensures o.Ok? ==> commits == CommitPoints(n) && o.value.txn == []
    ensures o.Ok? ==> CommitsSucceeded(commitRc, |CommitPoints(n)|)
    ensures o.Ok? ==> Generated(o.value.committed, KeyString)
    ensures o.Ok? ==> |o.value.committed| == if commitRc(|commits|) == Lmdb.MDB_SUCCESS then n else Durable(commits)
  {
    KeysAscending(n);
    o, commits := Populate(n, KeyString, LexLess, commitRc);
  }

  /** Below 10^9 each key sorts after the previous one, so MDB_APPEND accepts every put. */
  lemma KeysAscending(n: nat)
    ensures n <= KEY_LIMIT ==> Ascending(KeyString, LexLess, n)
  {
    if n <= KEY_LIMIT {
      forall i: nat | 0 < i < n ensures LexLess(KeyString(i - 1), KeyString(i)) {
        KeyOrder(i - 1, i);
      }
    }
  }

  /** The lookup of index `r` finds exactly the value the populate loop stored for it. */
  predicate Verified(db: Lmdb.Env<string>, r: nat) {
    Lmdb.CursorGet(db, KeyString(r)) == Some(ValueString(r))
  }

  /**
   * Exit code of a failed lookup: `mdb_assert` on MDB_NOTFOUND, or 1 for a
   * value of the wrong length or content.
   */
  function FailureCode(db: Lmdb.Env<string>, r: nat): int {
    if Lmdb.CursorGet(db, KeyString(r)).None? then Lmdb.MDB_NOTFOUND else 1
  }

  /**
   * `mdb_randomaccess(n, lookups)`: lookup k uses index `rands[k] % n`, where
   * `rands[k]` is the k-th result of rand(). The first lookup that is not
   * found or returns another value ends the process.
   */
  method MdbRandomAccess(db: Lmdb.Env<string>, n: nat, rands: seq<nat>) returns (o: Outcome<()>)
    requires n > 0
    ensures o.Ok? <==> forall k :: 0 <= k < |rands| ==> Verified(db, rands[k] % n)
    ensures o.Exited? ==>
      (exists k :: 0 <= k < |rands| && !Verified(db, rands[k] % n)
        && (forall m :: 0 <= m < k ==> Verified(db, rands[m] % n))
        && o.code == FailureCode(db, rands[k] % n))
  {
    var i := 0;
    while i < |rands|
      invariant i <= |rands|
      invariant forall m :: 0 <= m < i ==> Verified(db, rands[m] % n)
    {
      var r: nat := rands[i] % n;
      var mykey := KeyString(r);
      var myvalue := ValueString(r);
      var vlen := |myvalue|;
      var val := Lmdb.CursorGet(db, mykey);
      if val.None? {
        o := Exited(Lmdb.MDB_NOTFOUND);
        return;
      }
      if |val.value| != vlen || val.value != myvalue {
        o := Exited(1);
        return;
      }
      i := i + 1;
    }
    o := Ok(());
  }

  /**
   * Populate-then-verify round trip: when every record of a populate run
   * of `n` records is durable, every index in [0, n) verifies, so
   * `MdbRandomAccess` over it returns normally for every sequence of rand() results.
   */
  lemma PopulateThenVerify(db: Lmdb.Env<string>, n: nat, r: nat)
    requires Generated(db.committed, KeyString) && |db.committed| == n
    requires r < n
    ensures Verified(db, r)
  {
    forall a: nat, b: nat | a < b < |db.committed| ensures KeyString(a) != KeyString(b) {
      KeyInjective(a, b);
    }
    LookupGenerated(db.committed, KeyString, r);
  }

  /**
   * When the unchecked final commit fails, a lookup of an index put after
   * the last in-loop commit is not found and ends the process with
   * MDB_NOTFOUND.
   */
  lemma LostFinalBatch(db: Lmdb.Env<string>, n: nat, r: nat)
    requires Generated(db.committed, KeyString) && |db.committed| == Durable(CommitPoints(n))
    requires Durable(CommitPoints(n)) <= r < n
    ensures !Verified(db, r) && FailureCode(db, r) == Lmdb.MDB_NOTFOUND
  {
    forall i: nat | i < |db.committed| ensures KeyString(i) != KeyString(r) {
      KeyInjective(i, r);
    }
    LookupMissing(db.committed, KeyString, KeyString(r));
  }
}

=== FILE: bench_mdbi.dfy ===
/**
 * The LMDB driver with integer keys: the native `int` index is the key
 * (MDB_INTEGERKEY), `value_%d` the value; the same batched MDB_APPEND bulk
 * load, then random point lookups that check every value.
 */
module BenchMdbi {
  import opened Process
  import opened Format
  import opened Records
  import opened BulkLoad
  import Lmdb

  /**
   * `mdb_create(n)` with integer keys: the shared populate loop with the
   * index as key under the MDB_INTEGERKEY order. The keys always ascend, so
   * only a failing in-loop commit can end the process.
   */
  method MdbCreate(n: nat, commitRc: nat -> int) returns (o: Outcome<Lmdb.Env<int>>, commits: seq<nat>)
    ensures o.Exited? ==> o.code != Lmdb.MDB_SUCCESS && o.code == commitRc(|commits|)
    ensures CommitsSucceeded(commitRc, |CommitPoints(n)|) ==> o.Ok?
    ensures o.Ok? ==> commits == CommitPoints(n) && o.value.txn == []
    ensures o.Ok? ==> CommitsSucceeded(commitRc, |CommitPoints(n)|)
    ensures o.Ok? ==> Generated(o.value.committed, IntKey)
    ensures o.Ok? ==> |o.value.committed| == if commitRc(|commits|) == Lmdb.MDB_SUCCESS then n else Durable(commits)
  {
    assert Ascending(IntKey, Lmdb.IntegerKeyLess, n);
    o, commits := Populate(n, IntKey, Lmdb.IntegerKeyLess, commitRc);
  }

  /** The lookup of index `r` finds exactly the value the populate loop stored for it. */
  predicate Verified(db: Lmdb.Env<int>, r: nat) {
    Lmdb.CursorGet(db, IntKey(r)) == Some(ValueString(r))
  }

  /**
   * Exit code of a failed lookup: `mdb_assert` on MDB_NOTFOUND, or 1 for a
   * value of the wrong length or content.
   */
  function FailureCode(db: Lmdb.Env<int>, r: nat): int {
    if Lmdb.CursorGet(db, IntKey(r)).None? then Lmdb.MDB_NOTFOUND else 1
  }

  /**
   * `mdb_randomaccess(n, lookups)`: lookup k uses the key `rands[k] % n`,
   * where `rands[k]` is the k-th result of rand(). The first lookup that is
   * not found or returns another value ends the process.
   */
  method MdbRandomAccess(db: Lmdb.Env<int>, n: nat, rands: seq<nat>) returns (o: Outcome<()>)
    requires n > 0
    ensures o.Ok? <==> forall k :: 0 <= k < |rands| ==> Verified(db, rands[k] % n)
    ensures o.Exited? ==>
      (exists k :: 0 <= k < |rands| && !Verified(db, rands[k] % n)
        && (forall m :: 0 <= m < k ==> Verified(db, rands[m] % n))
        && o.code == FailureCode(db, rands[k] % n))
  {
    var i := 0;
    while i < |rands|
      invariant i <= |rands|
      invariant forall m :: 0 <= m < i ==> Verified(db, rands[m] % n)
    {
      var r: nat := rands[i] % n;
      var myvalue := ValueString(r);
      var vlen := |myvalue|;
      var val := Lmdb.CursorGet(db, IntKey(r));
      if val.None? {
        o := Exited(Lmdb.MDB_NOTFOUND);
        return;
      }
      if |val.value| != vlen || val.value != myvalue {
        o := Exited(1);
        return;
      }
      i := i + 1;
    }
    o := Ok(());
  }

  /**
   * Populate-then-verify round trip: when every record of a populate run
   * of `n` records is durable, every index in [0, n) verifies.
   */
  lemma PopulateThenVerify(db: Lmdb.Env<int>, n: nat, r: nat)
    requires Generated(db.committed, IntKey) && |db.committed| == n
    requires r < n
    ensures Verified(db, r)
  {
    LookupGenerated(db.committed, IntKey, r);
  }
}

=== FILE: benchi.dfy ===
/**
 * The Sparkey driver: native `int` keys with `value_%d` values put into a
 * Sparkey log, a hash index written over it, random point lookups that
 * check every value, and the `test` routine that resets the artifacts,
 * times both phases, reports the file size and removes the artifacts again.
 */
module BenchSparkey {
  import opened Process
  import opened Format
  import opened Records
  import opened Clock
  import opened Artifacts
  import Sparkey

  /**
   * `sparkey_create(n, ...)`: the put loop. The log receives exactly the
   * records of indices 0..n-1 in order, the index as key. The compression
   * type and block size do not change what the log holds.
   */
  method SparkeyCreate(n: nat) returns (log: seq<(int, string)>)
    ensures |log| == n
    ensures Generated(log, IntKey)
  {
    log := [];
    var i := 0;
    while i < n
      invariant i <= n && |log| == i
      invariant Generated(log, IntKey)
    {
      var myvalue := ValueString(i);
      GeneratedAppend(log, IntKey);
      log := log + [(IntKey(i), myvalue)];
      i := i + 1;
    }
  }

  /** The lookup of index `r` finds an active iterator on exactly the value put for it. */
  predicate Verified(log: seq<(int, string)>, r: nat) {
    Sparkey.HashGet(log, IntKey(r)) == (Sparkey.Active, ValueString(r))
  }

  /**
   * `sparkey_randomaccess(n, lookups)`: lookup k uses the key `rands[k] % n`,
   * where `rands[k]` is the k-th result of rand(). A key whose iterator is
   * not active, or a value of another length or content, ends the process
   * with exit code 1.
   */
  method SparkeyRandomAccess(log: seq<(int, string)>, n: nat, rands: seq<nat>) returns (o: Outcome<()>)
    requires n > 0
    ensures o.Ok? <==> forall k :: 0 <= k < |rands| ==> Verified(log, rands[k] % n)
    ensures o.Exited? ==>
      o.code == 1 &&
      (exists k :: 0 <= k < |rands| && !Verified(log, rands[k] % n)
        && (forall m :: 0 <= m < k ==> Verified(log, rands[m] % n)))
  {
    var i := 0;
    while i < |rands|
      invariant i <= |rands|
      invariant forall m :: 0 <= m < i ==> Verified(log, rands[m] % n)
    {
      var r: nat := rands[i] % n;
      var myvalue := ValueString(r);
      var got := Sparkey.HashGet(log, IntKey(r));
      if got.0 != Sparkey.Active {
        o := Exited(1);
        return;
      }
      // `sparkey_logiter_valuelen` and `sparkey_logiter_fill_value`: copy out the whole value.
      var wantedLen := |got.1|;
      var actual := got.1[..wantedLen];
      assert actual == got.1;  // the copy is the whole stored value
      if |actual| != |myvalue| || actual != myvalue {
        o := Exited(1);
        return;
      }
      i := i + 1;
    }
    o := Ok(());
  }

  /**
   * Populate-then-verify round trip: every index in [0, n) of the log
   * `SparkeyCreate(n)` wrote verifies, so `SparkeyRandomAccess` over it
   * returns normally for every sequence of rand() results.
   */
  lemma PopulateThenVerify(log: seq<(int, string)>, n: nat, r: nat)
    requires Generated(log, IntKey) && |log| == n
    requires r < n
    ensures Verified(log, r)
  {
    LookupGenerated(log, IntKey, r);
  }

  /** Every lookup into a freshly created log succeeds, whatever rand() returns. */
  lemma LookupsSucceed(log: seq<(int, string)>, n: nat, rands: seq<nat>)
    requires Generated(log, IntKey) && |log| == n && n > 0
    ensures forall k :: 0 <= k < |rands| ==> Verified(log, rands[k] % n)
  {
    forall k | 0 <= k < |rands| ensures Verified(log, rands[k] % n) {
      PopulateThenVerify(log, n, rands[k] % n);
    }
  }

  /** The readings `wall()` and `cpu()` take at one instant: wall clock, user CPU and system CPU. */
  datatype Snapshot = Snapshot(wall: (int, int), user: (int, int), sys: (int, int))

  predicate NormalSnapshot(s: Snapshot) {
    NormalUsec(s.wall.1) && NormalUsec(s.user.1) && NormalUsec(s.sys.1)
  }

  /** Microseconds from reading `a` to reading `b`. */
  function Elapsed(a: (int, int), b: (int, int)): int {
    ToMicros(b.0, b.1) - ToMicros(a.0, a.1)
  }

  /** `wall(&tv); cpu(tv_cpu);`: three fresh structs holding the readings of `s`. */
  method Take(s: Snapshot) returns (wall: Timeval, user: Timeval, sys: Timeval)
    ensures fresh(wall) && fresh(user) && fresh(sys)
    ensures wall != user && wall != sys && user != sys
    ensures wall.Micros() == ToMicros(s.wall.0, s.wall.1) && wall.Normal() == NormalUsec(s.wall.1)
    ensures user.Micros() == ToMicros(s.user.0, s.user.1) && user.Normal() == NormalUsec(s.user.1)
    ensures sys.Micros() == ToMicros(s.sys.0, s.sys.1) && sys.Normal() == NormalUsec(s.sys.1)
  {
    wall := new Timeval(s.wall.0, s.wall.1);
    user := new Timeval(s.user.0, s.user.1);
    sys := new Timeval(s.sys.0, s.sys.1);
  }

  /**
   * The timing of one phase: the structs filled at its start are reduced in
   * place by `timesub` against the structs filled at its end. The end
   * structs of the creation phase are the start structs of the lookup
   * phase; `timesub` leaves its second argument alone, so they still hold
   * the reading taken between the phases.
   */
  method PhaseDeltas(start: Snapshot, end: Snapshot) returns (wall: Timeval, user: Timeval, sys: Timeval)
    ensures fresh(wall) && fresh(user) && fresh(sys)
    ensures wall.Micros() == Elapsed(start.wall, end.wall)
    ensures user.Micros() == Elapsed(start.user, end.user)
    ensures sys.Micros() == Elapsed(start.sys, end.sys)
    ensures NormalSnapshot(start) && NormalSnapshot(end) ==> wall.Normal() && user.Normal() && sys.Normal()
  {
    wall, user, sys := Take(start);
    var wallEnd, userEnd, sysEnd := Take(end);
    EndPhase(wall, user, sys, wallEnd, userEnd, sysEnd);
  }

  /** What `test` prints, in microseconds: phase durations, denominators and the file size. */
  datatype Report = Report(
    createWall: int, createUser: int, createSys: int, createDenominator: int,
    fileSize: nat,
    lookupWall: int, lookupUser: int, lookupSys: int, lookupDenominator: int)

  /** The working directory once `create` returned: what the reset left, plus the files the engine wrote. */
  function Created(root: map<string, Node>, files: seq<string>, written: map<string, Node>): map<string, Node> {
    RmAll(root, files) + written
  }

  /**
   * `test(c, n, lookups)` for a Sparkey candidate. The clock readings
   * `s1`, `s2`, `s3` are taken before creation, between the phases and
   * after the lookups; `written` stands for the files the engine writes, and
   * `files` for the candidate's file list (`sparkey_list`: "test.spi" and
   * "test.spl").
   * The run ends early (leaving the artifacts behind) exactly when an
   * artifact cannot be stat'ed; the lookups themselves never fail.
   */
  method Test(fs: FileSystem, files: seq<string>, n: nat, rands: seq<nat>, written: map<string, Node>, s1: Snapshot, s2: Snapshot, s3: Snapshot)
    returns (o: Outcome<Report>)
    requires n > 0
    modifies fs
    ensures o.Ok? <==> forall k :: 0 <= k < |files| ==> files[k] in Created(old(fs.root), files, written)
    ensures o.Exited? ==> o.code == STAT_FAILED && fs.root == Created(old(fs.root), files, written)
    ensures o.Ok? ==> fs.root == RmAll(Created(old(fs.root), files, written), files)
    ensures o.Ok? ==> TotalSize(Created(old(fs.root), files, written), files) == Ok(o.value.fileSize)
    ensures o.Ok? ==>
      o.value.createWall == Elapsed(s1.wall, s2.wall) && o.value.createUser == Elapsed(s1.user, s2.user)
      && o.value.createSys == Elapsed(s1.sys, s2.sys)
    ensures o.Ok? ==>
      o.value.lookupWall == Elapsed(s2.wall, s3.wall) && o.value.lookupUser == Elapsed(s2.user, s3.user)
      && o.value.lookupSys == Elapsed(s2.sys, s3.sys)
    ensures o.Ok? && NormalSnapshot(s1) && NormalSnapshot(s2) ==>
      o.value.createDenominator == if o.value.createUser == 0 then o.value.createWall else o.value.createUser + o.value.createSys
    ensures o.Ok? && NormalSnapshot(s1) && NormalSnapshot(s2)
      && o.value.createWall > 0 && o.value.createUser >= 0 && o.value.createSys >= 0
      ==> o.value.createDenominator > 0
    ensures o.Ok? ==> o.value.lookupDenominator == o.value.lookupUser + o.value.lookupSys
  {
    fs.RmAllRec(files);

    var log := SparkeyCreate(n);
    // The engine's writer and hash writer leave their files in the working directory.
    fs.root := fs.root + written;
    ghost var created := fs.root;
    assert created == Created(old(fs.root), files, written);

    var createWall, createUser, createSys := PhaseDeltas(s1, s2);
    var createDenominator := CreationDenominator(createWall, createUser, createSys);
    if NormalSnapshot(s1) && NormalSnapshot(s2) {
      CreationDenominatorChoice(createWall, createUser, createSys);
      if createWall.Micros() > 0 && createUser.Micros() >= 0 && createSys.Micros() >= 0 {
        CreationDenominatorPositive(createWall, createUser, createSys);
      }
    }

    TotalSizeDefined(created, files);
    var size := fs.TotalFileSize(files);
    if size.Exited? {
      o := Exited(size.code);
      return;
    }

    LookupsSucceed(log, n, rands);
    var lookups := SparkeyRandomAccess(log, n, rands);
    assert lookups.Ok?;

    var lookupWall, lookupUser, lookupSys := PhaseDeltas(s2, s3);
    var lookupDenominator := LookupDenominator(lookupUser, lookupSys);

    fs.RmAllRec(files);
    o := Ok(Report(
      createWall.Micros(), createUser.Micros(), createSys.Micros(), createDenominator,
      size.value,
      lookupWall.Micros(), lookupUser.Micros(), lookupSys.Micros(), lookupDenominator));
  }
}

=== FILE: clock.dfy ===
/**
 * Phase timing of the drivers that measure with `struct timeval`: the
 * snapshots are taken by gettimeofday/getrusage (inputs here), reduced to
 * deltas in place by `timesub`, and one of them chosen as the throughput
 * denominator. Durations are kept as whole microseconds; the float division
 * that turns them into throughput is not modelled.
 */
module Clock {

  const USEC_PER_SEC: int := 1_000_000

  /** A microsecond field in its normal range [0, 10^6). */
  predicate NormalUsec(usec: int) {
    0 <= usec < USEC_PER_SEC
  }

  /** A (seconds, microseconds) pair as whole microseconds. */
  function ToMicros(sec: int, usec: int): int {
    sec * USEC_PER_SEC + usec
  }

  /** A `struct timeval`: seconds and microseconds. */
  class Timeval {
    var sec: int
    var usec: int

    constructor (sec: int, usec: int)
      ensures this.sec == sec && this.usec == usec
    {
      this.sec := sec;
      this.usec := usec;
    }

    /** The instant or duration in microseconds. */
    function Micros(): int
      reads this
    {
      ToMicros(sec, usec)
    }

    /** The microsecond field is in its normal range [0, 10^6). */
    predicate Normal()
      reads this
    {
      NormalUsec(usec)
    }

    predicate IsZero()
      reads this
    {
      sec == 0 && usec == 0
    }
  }

  /**
   * `timesub(tv1, tv2)`: overwrite `tv1` with `tv2 - tv1`, borrowing one
   * second when the microsecond difference is negative.
   */
  method TimeSub(tv1: Timeval, tv2: Timeval)
    modifies tv1
    ensures tv1.Micros() == old(tv2.Micros()) - old(tv1.Micros())
    ensures old(tv1.Normal()) && old(tv2.Normal()) ==> tv1.Normal()
    ensures old(tv1.Normal()) && old(tv2.Normal()) && old(tv1.Micros()) <= old(tv2.Micros()) ==> tv1.sec >= 0
    ensures tv1 != tv2 ==> unchanged(tv2)
  {
    tv1.usec := tv2.usec - tv1.usec;
    if tv1.usec < 0 {
      tv1.usec := tv1.usec + USEC_PER_SEC;
      tv1.sec := tv1.sec + 1;
    }
    tv1.sec := tv2.sec - tv1.sec;
  }

  /**
   * The three `timesub` calls that end a phase: the wall, user-CPU and
   * system-CPU readings taken at its start become the durations up to the
   * readings taken at its end.
   */
  method EndPhase(wall1: Timeval, user1: Timeval, sys1: Timeval, wall2: Timeval, user2: Timeval, sys2: Timeval)
    requires wall1 != user1 && wall1 != sys1 && user1 != sys1
    requires {wall1, user1, sys1} !! {wall2, user2, sys2}
    modifies wall1, user1, sys1
    ensures wall1.Micros() == old(wall2.Micros() - wall1.Micros())
    ensures user1.Micros() == old(user2.Micros() - user1.Micros())
    ensures sys1.Micros() == old(sys2.Micros() - sys1.Micros())
    ensures old(wall1.Normal() && wall2.Normal()) ==> wall1.Normal()
    ensures old(user1.Normal() && user2.Normal()) ==> user1.Normal()
    ensures old(sys1.Normal() && sys2.Normal()) ==> sys1.Normal()
    ensures unchanged(wall2, user2, sys2)
  {
    TimeSub(wall1, wall2);
    TimeSub(user1, user2);
    TimeSub(sys1, sys2);
  }

  /** A normalised duration is zero exactly when both of its fields are. */
  lemma NormalZero(tv: Timeval)
    requires tv.Normal()
    ensures tv.Micros() == 0 <==> tv.IsZero()
  {
  }

  /**
   * Denominator of the creation throughput, from the wall, user-CPU and
   * system-CPU deltas: the wall delta when the user-CPU delta is exactly
   * 0 s 0 us, and otherwise user plus system CPU time.
   */
  function CreationDenominator(wall: Timeval, user: Timeval, sys: Timeval): (d: int)
    reads wall, user, sys
    ensures user.IsZero() ==> d == wall.Micros()
    ensures !user.IsZero() ==> d == user.Micros() + sys.Micros()
  {
    if user.IsZero() then wall.Micros() else user.Micros() + sys.Micros()
  }

  /**
   * For a normalised user-CPU delta the fallback is taken exactly when no
   * user-CPU time elapsed, whatever the microsecond field layout.
   */
  lemma CreationDenominatorChoice(wall: Timeval, user: Timeval, sys: Timeval)
    requires user.Normal()
    ensures CreationDenominator(wall, user, sys) ==
      if user.Micros() == 0 then wall.Micros() else user.Micros() + sys.Micros()
  {
    NormalZero(user);
  }

  /** Denominator of the lookup throughput: user plus system CPU time, with no fallback. */
  function LookupDenominator(user: Timeval, sys: Timeval): (d: int)
    reads user, sys
    ensures user.Normal() && sys.Normal() && user.Micros() >= 0 && sys.Micros() >= 0 ==>
      (d == 0 <==> user.IsZero() && sys.IsZero())
  {
    user.Micros() + sys.Micros()
  }

  /**
   * With normalised, non-negative deltas and a positive wall delta, the
   * creation denominator is positive: the fallback keeps the creation
   * throughput finite.
   */
  lemma CreationDenominatorPositive(wall: Timeval, user: Timeval, sys: Timeval)
    requires wall.Normal() && user.Normal() && sys.Normal()
    requires wall.Micros() > 0 && user.Micros() >= 0 && sys.Micros() >= 0
    ensures CreationDenominator(wall, user, sys) > 0
  {
    NormalZero(user);
  }
}

=== FILE: format.dfy ===
/**
 * The deterministic record formatting shared by the populate and lookup
 * phases: `sprintf("%d")`, `sprintf("%09d")`, the key and value strings built
 * from an index, and the byte-wise (memcmp) order on strings that LMDB's
 * default comparator uses.
 */
module Format {

  /** Width of the zero-padded decimal in `key_%09d`. */
  const KEY_DIGITS: nat := 9
  /** Every index below this bound formats to a key of exactly 13 bytes. */
  const KEY_LIMIT: nat := 1_000_000_000
  /** Largest value of a C `int`. */
  const INT_MAX: nat := 2_147_483_647
  /** Size of the `char myvalue[100]` buffers (including the terminating NUL). */
  const BUFFER_SIZE: nat := 100

  function Pow10(k: nat): (p: nat)
    ensures p >= 1
  {
    if k == 0 then 1 else 10 * Pow10(k - 1)
  }

  predicate IsDigit(c: char) {
    '0' <= c <= '9'
  }

  predicate AllDigits(s: string) {
    forall k :: 0 <= k < |s| ==> IsDigit(s[k])
  }

  function DigitChar(d: nat): (c: char)
    requires d < 10
    ensures IsDigit(c)
  {
    ('0' as int + d) as char
  }

  /** `sprintf("%d", i)` for a non-negative `i`: the unpadded decimal digits. */
  function Decimal(i: nat): (s: string)
    ensures 1 <= |s| && AllDigits(s)
  {
    if i < 10 then [DigitChar(i)] else Decimal(i / 10) + [DigitChar(i % 10)]
  }

  /**
   * `sprintf("%0<width>d", i)` for a non-negative `i`: the decimal digits of
   * `i`, padded on the left with '0' to at least `width` characters.
   */
  function ZeroPadded(i: nat, width: nat): (s: string)
    ensures 1 <= |s| && AllDigits(s)
  {
    if width <= 1 then Decimal(i) else ZeroPadded(i / 10, width - 1) + [DigitChar(i % 10)]
  }

  /** The number a string of decimal digits denotes (the inverse of the formatting). */
  function DigitsValue(s: string): nat
    requires AllDigits(s)
  {
    if s == [] then 0 else DigitsValue(s[..|s| - 1]) * 10 + (s[|s| - 1] as int - '0' as int)
  }

  /** `sprintf(mykey, "key_%09d", i)` */
  function KeyString(i: nat): string {
    "key_" + ZeroPadded(i, KEY_DIGITS)
  }

  /**
   * The key the integer-key drivers pass: the bytes of the C `int` index
   * itself (`&i`, `sizeof(i)`), modelled by the integer.
   */
  function IntKey(i: nat): int {
    i
  }

  /** `sprintf(myvalue, "value_%d", i)` */
  function ValueString(i: nat): string {
    "value_" + Decimal(i)
  }

  /**
   * Byte-wise lexicographic order: the first differing byte decides, and a
   * proper prefix comes first. This is LMDB's default key order (memcmp over
   * the common length, then the shorter key first).
   */
  predicate LexLess(a: string, b: string) {
    if b == [] then false
    else if a == [] then true
    else a[0] < b[0] || (a[0] == b[0] && LexLess(a[1..], b[1..]))
  }

  // ---------------------------------------------------------------------
  // Round trips: formatting is injective

  lemma {:induction false} DecimalValue(i: nat)
    ensures DigitsValue(Decimal(i)) == i
  {
    if i >= 10 {
      var s := Decimal(i);
      assert s[..|s| - 1] == Decimal(i / 10);
      DecimalValue(i / 10);
    }
  }

  /** `%d` pads nothing: the first digit is '0' only for zero itself. */
  lemma {:induction false} DecimalUnpadded(i: nat)
    ensures Decimal(i)[0] == '0' <==> i == 0
  {
    if i >= 10 {
      assert Decimal(i)[0] == Decimal(i / 10)[0];
      DecimalUnpadded(i / 10);
    }
  }

  lemma {:induction false} ZeroPaddedValue(i: nat, width: nat)
    ensures DigitsValue(ZeroPadded(i, width)) == i
  {
    if width <= 1 {
      DecimalValue(i);
    } else {
      var s := ZeroPadded(i, width);
      assert s[..|s| - 1] == ZeroPadded(i / 10, width - 1);
      ZeroPaddedValue(i / 10, width - 1);
    }
  }

  /** Distinct indices give distinct keys, for every index. */
  lemma KeyInjective(i: nat, j: nat)
    ensures KeyString(i) == KeyString(j) ==> i == j
  {
    if KeyString(i) == KeyString(j) {
      assert ZeroPadded(i, KEY_DIGITS) == KeyString(i)[4..];
      assert ZeroPadded(j, KEY_DIGITS) == KeyString(j)[4..];
      ZeroPaddedValue(i, KEY_DIGITS);
      ZeroPaddedValue(j, KEY_DIGITS);
    }
  }

  /** Distinct indices give distinct values, for every index. */
  lemma ValueInjective(i: nat, j: nat)
    ensures ValueString(i) == ValueString(j) ==> i == j
  {
    if ValueString(i) == ValueString(j) {
      assert Decimal(i) == ValueString(i)[6..];
      assert Decimal(j) == ValueString(j)[6..];
      DecimalValue(i);
      DecimalValue(j);
    }
  }

  // ---------------------------------------------------------------------
  // Lengths

  lemma {:induction false} DecimalLength(i: nat, k: nat)
    requires 1 <= k && i < Pow10(k)
    ensures |Decimal(i)| <= k
  {
    if i >= 10 {
      assert k >= 2;
      DecimalLength(i / 10, k - 1);
    }
  }

  lemma {:induction false} ZeroPaddedLength(i: nat, width: nat)
    requires 1 <= width && i < Pow10(width)
    ensures |ZeroPadded(i, width)| == width
  {
    if width > 1 {
      ZeroPaddedLength(i / 10, width - 1);
    }
  }

  /** Every key the drivers format (index below 10^9) is exactly 13 bytes. */
  lemma KeyLength(i: nat)
    requires i < KEY_LIMIT
    ensures |KeyString(i)| == 4 + KEY_DIGITS == 13
  {
    assert Pow10(KEY_DIGITS) == KEY_LIMIT;
    ZeroPaddedLength(i, KEY_DIGITS);
  }

  /**
   * A value for any non-negative C `int` is at most 16 bytes, so it fits the
   * 100-byte buffer with its terminating NUL.
   */
  lemma ValueLength(i: nat)
    requires i <= INT_MAX
    ensures |ValueString(i)| <= 16 < BUFFER_SIZE
  {
    assert Pow10(10) == 10_000_000_000;
    DecimalLength(i, 10);
  }

  /**
   * A value contains no NUL byte, so `strlen(myvalue)` (used by the Sparkey
   * driver) equals the length `sprintf` returned (used by the LMDB drivers).
   */
  lemma ValueHasNoNul(i: nat)
    ensures forall k :: 0 <= k < |ValueString(i)| ==> ValueString(i)[k] != '\0'
  {
    var d := Decimal(i);
    assert forall k :: 6 <= k < |ValueString(i)| ==> ValueString(i)[k] == d[k - 6];
  }

  // ---------------------------------------------------------------------
  // Key order: what makes the MDB_APPEND bulk load legal

  lemma {:induction false} LexLessPrefix(p: string, a: string, b: string)
    requires LexLess(a, b)
    ensures LexLess(p + a, p + b)
  {
    if p != [] {
      assert (p + a)[1..] == p[1..] + a;
      assert (p + b)[1..] == p[1..] + b;
      LexLessPrefix(p[1..], a, b);
    } else {
      assert p + a == a && p + b == b;
    }
  }

  lemma {:induction false} LexLessExtend(a: string, b: string, x: string, y: string)
    requires |a| == |b| && LexLess(a, b)
    ensures LexLess(a + x, b + y)
  {
    assert a != [] && b != [];
    if a[0] == b[0] && !(a[0] < b[0]) {
      assert (a + x)[1..] == a[1..] + x;
      assert (b + y)[1..] == b[1..] + y;
      LexLessExtend(a[1..], b[1..], x, y);
    }
  }

  lemma {:induction false} LexLessLast(a: string, x: char, y: char)
    requires x < y
    ensures LexLess(a + [x], a + [y])
  {
    if a != [] {
      assert (a + [x])[1..] == a[1..] + [x];
      assert (a + [y])[1..] == a[1..] + [y];
      LexLessLast(a[1..], x, y);
    }
  }

  lemma {:induction false} ZeroPaddedOrder(i: nat, j: nat, width: nat)
    requires 1 <= width && i < j < Pow10(width)
    ensures LexLess(ZeroPadded(i, width), ZeroPadded(j, width))
  {
    if width == 1 {
      assert ZeroPadded(i, width) == [DigitChar(i)];
      assert ZeroPadded(j, width) == [DigitChar(j)];
    } else {
      var a, b := ZeroPadded(i / 10, width - 1), ZeroPadded(j / 10, width - 1);
      if i / 10 < j / 10 {
        ZeroPaddedOrder(i / 10, j / 10, width - 1);
        ZeroPaddedLength(i / 10, width - 1);
        ZeroPaddedLength(j / 10, width - 1);
        LexLessExtend(a, b, [DigitChar(i % 10)], [DigitChar(j % 10)]);
      } else {
        assert a == b && i % 10 < j % 10;
        LexLessLast(a, DigitChar(i % 10), DigitChar(j % 10));
      }
    }
  }

  /**
   * For indices below 10^9, a smaller index gives a byte-wise smaller key:
   * the ascending populate loop hands LMDB its keys in sorted order.
   */
  lemma KeyOrder(i: nat, j: nat)
    requires i < j < KEY_LIMIT
    ensures LexLess(KeyString(i), KeyString(j))
  {
    assert Pow10(KEY_DIGITS) == KEY_LIMIT;
    ZeroPaddedOrder(i, j, KEY_DIGITS);
    LexLessPrefix("key_", ZeroPadded(i, KEY_DIGITS), ZeroPadded(j, KEY_DIGITS));
  }
}

=== FILE: lmdb.dfy ===
/**
 * The part of LMDB the drivers rely on, as an abstract engine.
 *
 * The drivers only ever append (MDB_APPEND) and then do point lookups, so the
 * database is modelled as the sequence of (key, value) pairs in the order
 * they were appended: `committed` is what a reader that opens the file later
 * sees, `txn` the puts of the write transaction still open. An append is
 * accepted only when its key sorts after the last key in the database,
 * as LMDB requires; otherwise the put reports MDB_KEYEXIST.
 */
module Lmdb {
  import opened Process
  import opened Records

  const MDB_SUCCESS: int := 0
  const MDB_KEYEXIST: int := -30799
  const MDB_NOTFOUND: int := -30798

  datatype Env<K> = Env(committed: seq<(K, string)>, txn: seq<(K, string)>)

  /** A freshly created database file with an open write transaction. */
  function EmptyEnv<K>(): Env<K> {
    Env([], [])
  }

  /** All records the open write transaction sees. */
  function Visible<K>(env: Env<K>): seq<(K, string)> {
    env.committed + env.txn
  }

  /** `mdb_cursor_put(mc, key, val, MDB_APPEND)`, under the key order `less`. */
  function CursorPutAppend<K>(env: Env<K>, key: K, val: string, less: (K, K) -> bool): (res: (int, Env<K>))
    ensures res.0 == MDB_SUCCESS || res.0 == MDB_KEYEXIST
    ensures res.0 == MDB_SUCCESS <==> Visible(env) == [] || less(Visible(env)[|Visible(env)| - 1].0, key)
    ensures res.0 == MDB_SUCCESS ==> res.1.committed == env.committed && Visible(res.1) == Visible(env) + [(key, val)]
    ensures res.0 != MDB_SUCCESS ==> res.1 == env
  {
    var all := Visible(env);
    if all == [] || less(all[|all| - 1].0, key) then (MDB_SUCCESS, env.(txn := env.txn + [(key, val)]))
    else (MDB_KEYEXIST, env)
  }

  /** A successful `mdb_txn_commit`: the transaction's puts become durable. */
  function TxnCommit<K>(env: Env<K>): Env<K> {
    Env(env.committed + env.txn, [])
  }

  /** A failed `mdb_txn_commit` frees the transaction: its puts are lost. */
  function TxnAbort<K>(env: Env<K>): Env<K> {
    Env(env.committed, [])
  }

  /** `mdb_cursor_get(mc, &key, &val, MDB_SET)` in a read-only transaction opened later. */
  function CursorGet<K(==)>(env: Env<K>, key: K): Option<string> {
    LookupLast(env.committed, key)
  }

  /** `_mdb_assert`: any result other than MDB_SUCCESS ends the process with that result as exit code. */
  function MdbAssert(rc: int): (o: Outcome<()>)
    ensures o.Exited? <==> rc != MDB_SUCCESS
    ensures o.Exited? ==> o.code == rc
  {
    if rc != MDB_SUCCESS then Exited(rc) else Ok(())
  }

  /** Order of `MDB_INTEGERKEY` keys (native integers compared by value). */
  predicate IntegerKeyLess(a: int, b: int) {
    a < b
  }
}

=== FILE: process.dfy ===
/**
 * Process-level outcomes of the benchmark drivers.
 *
 * Every fatal condition in the drivers ends the process with `exit(code)`;
 * the model turns that into an `Exited(code)` value that the callers
 * propagate, so "the program exits" is an ordinary result here.
 */
module Process {

  datatype Option<+T> = None | Some(value: T)

  /** Either the operation finished with a value, or the process exited with `code`. */
  datatype Outcome<+T> = Ok(value: T) | Exited(code: int)

  /** The return value of a failed stat(2) call. */
  const STAT_FAILED: int := -1

  /**
   * `_errno_assert`: a non-zero system-call result ends the process with that
   * result as exit code; zero returns without any effect.
   */
  function ErrnoAssert(rc: int): (o: Outcome<()>)
    ensures o.Exited? <==> rc != 0
    ensures o.Exited? ==> o.code == rc
  {
    if rc != 0 then Exited(rc) else Ok(())
  }
}

=== FILE: records.dfy ===
/**
 * The synthetic record set. The populate loops hand the engine the pair
 * (key(i), "value_<i>") for i = 0, 1, ..., n-1, in that order; the lookup
 * loops rebuild the expected value from the index alone. The engines here
 * are modelled as the sequence of pairs they were given.
 */
module Records {
  import opened Process
  import opened Format

  /** `recs` holds exactly the records of indices 0..|recs|-1, in index order. */
  ghost predicate Generated<K>(recs: seq<(K, string)>, key: nat -> K) {
    forall k :: 0 <= k < |recs| ==> recs[k] == (key(k), ValueString(k))
  }

  /** Putting the next index's record keeps the sequence generated. */
  lemma GeneratedAppend<K>(recs: seq<(K, string)>, key: nat -> K)
    requires Generated(recs, key)
    ensures Generated(recs + [(key(|recs|), ValueString(|recs|))], key)
  {
  }

  /** A prefix of a generated sequence (what an earlier commit made durable) is generated. */
  lemma GeneratedPrefix<K>(recs: seq<(K, string)>, key: nat -> K, m: nat)
    requires Generated(recs, key) && m <= |recs|
    ensures Generated(recs[..m], key)
  {
  }

  /** The value of the last record with key `k` (a later put of the same key wins). */
  function LookupLast<K(==)>(recs: seq<(K, string)>, k: K): (v: Option<string>)
    ensures v.None? <==> forall m :: 0 <= m < |recs| ==> recs[m].0 != k
    ensures v.Some? ==> exists m :: 0 <= m < |recs| && recs[m] == (k, v.value)
  {
    if recs == [] then None
    else if recs[|recs| - 1].0 == k then Some(recs[|recs| - 1].1)
    else LookupLast(recs[..|recs| - 1], k)
  }

  /** Last write wins: a record no later record overrides is the one a lookup finds. */
  lemma {:induction false} LookupLastWins<K>(recs: seq<(K, string)>, k: K, m: nat)
    requires m < |recs| && recs[m].0 == k
    requires forall m' :: m < m' < |recs| ==> recs[m'].0 != k
    ensures LookupLast(recs, k) == Some(recs[m].1)
  {
    if m < |recs| - 1 {
      LookupLastWins(recs[..|recs| - 1], k, m);
    }
  }

  /**
   * Round trip: in a generated record sequence with pairwise distinct keys,
   * looking up the key of any stored index yields exactly that index's value.
   */
  lemma {:induction false} LookupGenerated<K>(recs: seq<(K, string)>, key: nat -> K, r: nat)
    requires Generated(recs, key)
    requires forall a: nat, b: nat :: a < b < |recs| ==> key(a) != key(b)
    requires r < |recs|
    ensures LookupLast(recs, key(r)) == Some(ValueString(r))
  {
    if r < |recs| - 1 {
      var prefix := recs[..|recs| - 1];
      assert recs[|recs| - 1].0 == key(|recs| - 1) != key(r);
      assert Generated(prefix, key) by {
        forall k | 0 <= k < |prefix| ensures prefix[k] == (key(k), ValueString(k)) {
          assert prefix[k] == recs[k];
        }
      }
      LookupGenerated(prefix, key, r);
    }
  }

  /** Keys the loop never put are not found. */
  lemma LookupMissing<K>(recs: seq<(K, string)>, key: nat -> K, k: K)
    requires Generated(recs, key)
    requires forall i: nat :: i < |recs| ==> key(i) != k
    ensures LookupLast(recs, k).None?
  {
    forall m | 0 <= m < |recs| ensures recs[m].0 != k {
      assert recs[m] == (key(m), ValueString(m));
    }
  }
}

=== FILE: sparkey.dfy ===
/**
 * The part of Sparkey the driver relies on, as an abstract engine.
 *
 * A log writer appends (key, value) pairs; the hash index written over the
 * log answers a point lookup with the value of the last put of that key. The
 * log is modelled as the sequence of pairs in the order they were put.
 */
module Sparkey {
  import opened Process
  import opened Records

  const SPARKEY_SUCCESS: int := 0

  /** The state of a log iterator after a hash lookup. */
  datatype IterState = Active | Invalid

  /**
   * `sparkey_hash_get` followed by `sparkey_logiter_state`: the iterator is
   * active exactly when the key was put, and then positioned on the value of
   * its last put.
   */
  function HashGet(log: seq<(int, string)>, key: int): (res: (IterState, string))
    ensures res.0 == Active <==> exists m :: 0 <= m < |log| && log[m].0 == key
    ensures res.0 == Active ==> LookupLast(log, key) == Some(res.1)
  {
    match LookupLast(log, key)
    case None => (Invalid, "")
    case Some(v) => (Active, v)
  }

  /** `_sparkey_assert`: any result other than SPARKEY_SUCCESS ends the process with that result as exit code. */
  function SparkeyAssert(rc: int): (o: Outcome<()>)
    ensures o.Exited? <==> rc != SPARKEY_SUCCESS
    ensures o.Exited? ==> o.code == rc
  {
    if rc != SPARKEY_SUCCESS then Exited(rc) else Ok(())
  }
}
